=== FILE: README.md ===
# Heap file, static hash table and secondary hash index — a Dafny model

This project models the three record stores of a teaching database engine, all
built on a page-oriented block manager:

- the **heap file** (`HeapFile`, `heap_file.dfy`): a header page 0 holding
  `(record_size, num_records, num_blocks)` and data pages `1..num_blocks`.
  Insertion is first-fit across the data pages and allocates a new page when all
  are full. Lookup by primary key is a full scan.
- the **primary hash table** (`HashTable`, `hash_table.dfy`): page 0 holds
  `num_buckets`, and bucket `i` starts on page `i + 1` with metadata
  `(num_records, record_size, num_blocks)`. `num_blocks` is the number of the
  bucket's tail page. Insert and lookup only touch the tail page of the bucket
  `id % num_buckets`.
- the **secondary index** (`SecondaryIndex`, `secondary_index.dfy`): a header
  page holding `num_buckets`, plus an in-memory array of slots. Each slot holds
  the last `(name, block id)` pair whose name hashes there under djb2. A lookup
  scans the primary buckets whose tail page has the slot's block id.

The block manager becomes a sequence of pages indexed by page number
(`BlockLayout.Store`). Allocating a block appends a page, so the new page's number
is the old length. A page is either a header page (integer fields keyed by
position) or a data page (its records, plus the bucket metadata a hash-table
bucket page carries while no record overlays it). Every operation is a pure
function from the store and the in-memory handle to new ones, or a method whose
loops mirror the source's loops. Block-manager failures, which make the source
return an error or exit, are preconditions.

The model follows the code as written, including where it departs from what its layout suggests:

- Hash-table records are written from byte 4 of a bucket page, not after its 12 metadata bytes. So
  the first record overwrites the bucket's `record_size` and `num_blocks` on
  disk. Reopening a table therefore reads back its metadata only before any
  insert (`HtReopenAfterInsert`).
- An overflow updates bucket `bucket + 1`, not the overflowing bucket.
- A hash-table lookup returns 1, not the number of matches.
- A secondary lookup takes the bucket's total `num_records` from the in-memory
  handle and reads that many record slots from the tail page, not the page's
  own record count.

The second and third are under "Findings", each with a corrected counterpart.
The fourth is under "Left out", next to `SecondaryIndex.Scanned`. The secondary
lookup uses the primary lookup as written, because that is what the source
calls.

`BF_BLOCK_SIZE` comes from `bf.h`, which is not part of this model. It is taken as
512 bytes, so a data page holds at most `(512 - 4) / 74 = 6` records.

## Model

| member | source | states |
|---|---|---|
| BlockLayout.FitsBelowCapacity | src/hp_file.c:110 | For a page within capacity, the size_t capacity test passes iff `BLOCK_SIZE - 4 - n*rs >= rs`, iff the page holds fewer than `(BLOCK_SIZE-4)/rs` records. So an insert never fills a page past capacity. |
| BlockLayout.FitsWrapsPastCapacity | src/ht_table.c:131 | At 74 bytes a page is full at 6 records. A page holding 7 would pass the test again, because the unsigned subtraction wraps. |
| BlockLayout.OnlyFirstSlotOverlapsMeta | src/ht_table.c:133 | Record slot n occupies bytes `4 + 74n .. 78 + 74n`. Those bytes overlap the bucket metadata at bytes 4..12 exactly when n is 0. |
| BlockLayout.WriteRecord | src/ht_table.c:133-137 | Writing a record appends it after the page's records. The record's bytes wipe the bucket metadata only when they overlap bytes 4..12, which by the slot layout happens exactly when the page was empty. |
| BlockLayout.CRem | src/ht_table.c:115 | C's `%`: `a == CQuot(a,b)*b + r` with the truncating quotient. `|r| < b`, and `r` has the sign of `a`. |
| BlockLayout.CRemNegative | src/ht_table.c:115 | For every negative key, the bucket is negative, and so indexes before the bucket array, unless num_buckets divides the key. |
| BlockLayout.HitsContents | src/hp_file.c:201-209 | The records a lookup collects are exactly those carrying the key: an equal id for the primary lookups, an equal name (`strcmp` zero) for the secondary one. |
| BlockLayout.HitsConcat | src/hp_file.c:189-217 | Counting matches over consecutive pages adds up the per-page matches. |
| BlockLayout.NoHitsIff | src/hp_file.c:201-220 | A lookup counts zero exactly when no record carries the key. |
| HeapFile.HpCreateFile | src/hp_file.c:20-54 | Create writes header `(74, 0, 1)` and exactly one empty data page, page 1. Opening the result gives back that triple, and the file is valid with no records. |
| HeapFile.HpOpenFile | src/hp_file.c:56-82 | The handle's triple is the header's fields 0, 1 and 2. |
| HeapFile.HpReopen | src/hp_file.c:67-79 | Opening any valid heap file reproduces the handle it was written with, because the header is written through. |
| HeapFile.FirstFit | src/hp_file.c:101-145 | Returns the lowest page in `k..nb` whose capacity test passes, with every earlier page failing it, or None when all of them fail. |
| HeapFile.HpInsertEntry | src/hp_file.c:94-177 | Insert appends the record to the first page with room, or to a new page `|store|` holding only it. `num_records` grows by 1 in the handle and in header field 1. `num_blocks` grows (handle and field 2) only when a page is allocated. All other data pages are unchanged. |
| HeapFile.HpInsertPreservesValid | src/hp_file.c:148-168 | Insert keeps the invariant: header equals handle, `num_blocks` data pages each within capacity, and `num_records` equal to the records stored. A new page is numbered `num_blocks + 1`. |
| HeapFile.HpInsertScan | src/hp_file.c:112-116 | A full scan after an insert holds exactly the earlier records plus the new one, as a multiset. |
| HeapFile.HpInsertCounts | src/hp_file.c:201-209 | Inserting a record with key k raises the lookup count of k by exactly 1. Every other key's count is unchanged. |
| HeapFile.HpFullBlockOverflow | src/hp_file.c:147-167 | With the only data page full, the next insert puts the record alone on page 2 and leaves page 1 intact. |
| HeapFile.HpGetAllEntries | src/hp_file.c:179-221 | Lookup returns the number of records in pages `1..num_blocks` whose id equals the key. It is 0 exactly when no record carries the key. |
| HeapFile.CountPage | src/hp_file.c:197-210 | The record loop of one page counts exactly the page's records whose id equals the key. |
| HashTable.Bucket | src/ht_table.c:115 | The bucket `id % num_buckets` lies in `[0, num_buckets)` for a non-negative key, and is at most 0 for a negative key. |
| HashTable.HtCreateFile | src/ht_table.c:18-57 | Create makes `1 + buckets` pages. Opening them yields `num_buckets = buckets` and bucket i = `(0, 74, i + 1)`. |
| HashTable.HtOpenFile | src/ht_table.c:60-97 | Open reads `num_buckets` from page 0 and each bucket's `(num_records, record_size, num_blocks)` from page i+1. It yields None iff some bucket page's metadata has been overwritten by a record. |
| HashTable.HtCreateThenOpen | src/ht_table.c:74-91 | The table opened right after creation satisfies the table invariant. |
| HashTable.HtInsertEntry | src/ht_table.c:113-199 | Only the key bucket's tail page is tried. In place: the record is appended there, that page number is returned, only bucket b's `num_records` grows, and header field 1 gets it. Overflow: a new page holds only the record; bucket b+1's `num_blocks` and `num_records` grow and go to fields 2 and 1; bucket b is unchanged; b+1's new `num_blocks` is returned. Other pages are unchanged. |
| HashTable.HtInsertPreservesInv | src/ht_table.c:122-198 | Insert keeps the invariant: tails exist, pages are within capacity, record size is 74, and stored keys have in-range buckets. |
| HashTable.HtRoomOnTail | src/ht_table.c:131 | A tail page holding fewer than 6 records passes the capacity test, so the insert is defined and happens in place. |
| HashTable.InPlaceStep | src/ht_table.c:131-158 | An insert whose tail page is below capacity appends the record to that tail. Only the key bucket's count grows, every bucket keeps its tail, and no other page changes. |
| HashTable.HtLookupAfterInsert | src/ht_table.c:131-158 | After an in-place insert, a lookup of the key sees the record on the bucket's tail. |
| HashTable.HtReopenAfterInsert | src/ht_table.c:133 | After any insert into a freshly created table of a key whose bucket is in range (every non-negative key, and negative keys num_buckets divides), reopening no longer reads back the metadata: the create/open round trip holds only before inserts. |
| HashTable.HtScenarioThreeInserts | src/ht_table.c:113-158 | With 4 buckets, ids 1, 5 and 9 all go to bucket 1's page 2, whose records become exactly those three. A lookup of 5 there sees one record. |
| HashTable.HtGetAllEntries | src/ht_table.c:201-246 | Lookup inspects exactly the key bucket's tail page and reports the matching records found there, but returns 1 whatever it found. |
| HashTable.FullBucketZeroReachable | src/ht_table.c:113-158 | Six inserts of key 0 into a fresh two-bucket table fill bucket 0's page 1 in place. The state they reach is the full table the two counterexamples start from. |
| HashTable.HtOverflowMisdirected | src/ht_table.c:183-198 | Counterexample: overflowing a full bucket 0 leaves bucket 0's tail at the full page. Bucket 1 takes the new page and counts the record. A lookup of the key misses the record. |
| HashTable.NoBumpStillMisses | src/ht_table.c:183-198 | Counterexample: dropping only `bucket++` still misdirects. Line 187's `num_blocks++` gives the full bucket 0 page 2, bucket 1's empty page, as its tail. The record lies on page 3, and a lookup of key 0 misses it. |
| HashTable.HtInsertEntryFixed | src/ht_table.c:168-198 | Corrected insert: the overflowing bucket takes the new page as its tail and counts the record. The returned page holds the record last, and no other bucket changes. |
| HashTable.HtFixedLookupAfterInsert | src/ht_table.c:168-198 | With the correction, a lookup right after any insert, overflow or not, sees the record. |
| HashTable.HtLookupCountIgnoresMatches | src/ht_table.c:227-236 | Counterexample: one reachable table has 0 matches on the key's tail page and another has 6, yet the lookup returns 1 for both. |
| HashTable.HtGetAllEntriesFixed | src/ht_table.c:227-236 | Corrected lookup: the count equals the number of matching records on the tail page. |
| SecondaryIndex.Djb2 | src/sht_table.c:89-92 | The djb2 hash always lies in the unsigned 32-bit range. |
| SecondaryIndex.Slot | src/sht_table.c:93 | The slot of a name is in `[0, num_buckets)`. |
| SecondaryIndex.HashFunction | src/sht_table.c:88-94 | The character loop's shift-and-add step `(h << 5) + h + c`, wrapping in unsigned int, equals djb2's `h*33 + c mod 2^32`. So the loop computes the djb2 fold from 5381 over the characters before the NUL, then returns `h % num_buckets`. |
| SecondaryIndex.ShtCreateSecondaryIndex | src/sht_table.c:21-45 | Create writes only a header page holding `buckets`. Opening it yields exactly `buckets` unset slots. |
| SecondaryIndex.ShtOpenSecondaryIndex | src/sht_table.c:48-73 | Open reads `num_buckets` and allocates that many slots, all unset. |
| SecondaryIndex.ShtSecondaryInsertEntry | src/sht_table.c:96-104 | Insert overwrites exactly the slot `hash(name)` with `(name, block_id)`, leaves every other slot unchanged, and returns 0. |
| SecondaryIndex.LastWriteWins | src/sht_table.c:100 | After two inserts whose names share a slot, the slot holds the second pair. A lookup of either name starts from the second block id. |
| SecondaryIndex.InsertThenLocate | src/sht_table.c:108-110 | After inserting `(name, b)`, a lookup of `name` starts from block b. |
| SecondaryIndex.Scanned | src/sht_table.c:125-127 | The records read from a candidate page are a prefix of the page's records. When the count is within the page, the prefix has exactly that many. |
| SecondaryIndex.ScanPage | src/sht_table.c:124-133 | Scanning one candidate page adds 1 for each record read whose name equals the query. |
| SecondaryIndex.ShtSecondaryGetAllEntries | src/sht_table.c:106-138 | Lookup returns the number of name matches among the records read from buckets whose tail equals the slot's block id, or 0 for an unset slot. It changes nothing. |
| SecondaryIndex.CountCandidates | src/sht_table.c:113-135 | The bucket loop counts the name matches among the records read from every bucket whose tail page is the block id. |
| SecondaryIndex.NoCandidateBlock | src/sht_table.c:113-115 | If no bucket's tail equals the block id, there are no candidate records, so the lookup returns 0. |
| SecondaryIndex.SingleCandidateBlock | src/sht_table.c:113-135 | If exactly one bucket's tail equals the block id, the candidates are the records read from that page. |
| SecondaryIndex.InsertThenLookup | src/sht_table.c:96-138 | On a fresh table and index: insert a record whose bucket is in range into the table, then insert its returned page into the index. A lookup of its name then returns 1. |
| SecondaryIndex.LookupSoleRecord | src/sht_table.c:106-135 | If the name's slot points at a page that is the tail of exactly one bucket, and that bucket holds just the record there, the lookup of the record's name counts 1. |
| SecondaryIndex.OverwrittenSlotStillLooksUp | src/sht_table.c:100-115 | After ("alice", 3) and then ("bob", 3) share a slot, the slot holds bob's pair. Alice's lookup proceeds from it rather than failing. |

## Left out

- Block-manager plumbing (create/open/close of files, block init/destroy, pin, unpin, dirty) is replaced by the page sequence. The error paths (`HP_ERROR` returns, `exit` on BF errors) become preconditions requiring the pages to exist.
- `HP_CloseFile`, `HT_CloseFile` and `SHT_CloseSecondaryIndex` only release pins and memory, and `HP_CloseFile` also closes the file. So they have no counterpart. The double unpin between open and close and the unchecked BF calls in `HP_OpenFile` are resource-lifecycle issues and are not modelled.
- `printf`/`printRecord` output is not modelled, except that `HtGetAllEntries` returns the records it would print. The integer results of `HP_CreateFile`, `HP_InsertEntry`, `HT_CreateFile` and `SHT_CreateSecondaryIndex` are always 0 and are dropped.
- Byte layout is not modelled: `memcpy` of 74 bytes from a padded record struct, the order of record fields, and native endianness. A record keeps its id, its name and two opaque fields (surname, city). The leading 15-byte character field that `record_size` counts (`15 + 4 + 15 + 20 + 20`) is not modelled, because no modelled operation reads it. A page keeps its integer header fields and its records.
- Integers are unbounded: 32-bit overflow of ids and counters is not modelled.
- Fresh pages are taken as zero-filled: the heap file's page 1, which create never writes, has count 0.
- `bf.h`, `record.h` and the block library are not part of this model. `BF_BLOCK_SIZE` is taken as 512.
- `HashTable.HtOpenFile`: once a record overlays any bucket page's bytes 4..12, the model returns None for the whole handle. In the source, reopening still reads `num_buckets` from page 0, since inserts only write header fields 1 and 2. It also still reads every bucket's record count and the metadata of bucket pages no record has overlaid. Only the overlaid record size and tail number come from the record's bytes. The model does not promise those values. The part of reopen that still holds is `HashTable.HtInsertEntry`'s ensures that header field 0 is unchanged.
- `HashTable.HtInsertEntry`: the overflow path writes `hash_table[bucket + 1]`, which is out of bounds for the last bucket. The model requires `bucket + 1 < num_buckets` on that path and does not say what the out-of-bounds write does.
- `HashTable.HtInsertEntry`: a negative id that num_buckets does not divide has a negative bucket (`BlockLayout.CRemNegative`). The source then reads `hash_table[bucket]` before the array. The model requires the bucket to be non-negative and does not say what that read returns.
- `HashTable.HtGetAllEntries`: the same negative-bucket read happens for a negative key. The lookup requires the key's bucket to be non-negative.
- `SecondaryIndex.Scanned`: the secondary lookup takes the bucket's total `num_records` from the in-memory handle and reads that many record slots from its tail page. It does not read the page's own record count. After an overflow the total exceeds the records written to that page, and can exceed the page itself. An example: take four buckets, fill bucket 0's page, and overflow it with a seventh key-0 record. That insert returns 3. Bucket 1 gets tail page 3 (bucket 2's empty page) and count 1, while the record lies on page 5. Indexing the record under block 3 makes a lookup of its name read one unwritten slot of page 3. The model takes slots past the written records to match no name. In the source a zero-filled slot has id 0 and an empty name, so a lookup of the empty name would match there. Within the page, the model differs only for that query. Once the bucket total passes 6, the source also reads slots beyond the 512-byte page: slot 7 starts at byte `4 + 7*74 = 522`. Those bytes lie outside the block and could match any name. The model takes those slots to match no name as well. One way to get there: start from the full two-bucket table and overflow bucket 0 eight more times. Bucket 1's count becomes 8, while its tail page holds one record.
- `HashTable.HtWf` and the secondary index's `ShtWf`, `Slot` and `HashFunction` require `num_buckets > 0`. With zero buckets the source divides by zero (`id % num_buckets`, `hash % num_buckets`) and crashes. The model does not represent that crash.
- `SecondaryIndex.ShtSecondaryGetAllEntries`: a slot never written holds uninitialised memory in the source. The model treats it as unset, and the lookup returns 0. A key with a negative bucket would index before the bucket array, so the lookup requires every stored key's bucket to be in range.
- The dangling `name` pointer stored in a slot (it is never read back) and the unused `fileName` parameter of `SHT_CreateSecondaryIndex` are not modelled.
- Names are C strings without their terminator. A name field with no NUL among its 15 bytes, which the source would read past, is not modelled.

## Findings

| source | as written | input that shows it | evidently intended | confidence | as-written member | corrected member |
|---|---|---|---|---|---|---|
| src/ht_table.c:183-198 | After an overflow, `bucket++` (line 183) makes the metadata update and the return value apply to the next bucket. The overflowing bucket keeps its full page as tail. Also, `num_blocks++` (line 187) names page `tail + 1`, which is the allocated page only when the tail is the file's last page. Removing `bucket++` alone would make bucket 0 take page 2, bucket 1's page, as its tail, while the record lies on page 3. | Two buckets; bucket 0's page 1 holds six key-0 records; insert a seventh key-0 record. Bucket 0 keeps tail 1, bucket 1 gets tail 3 and count 1, and a lookup of key 0 misses the record. | The overflowing bucket takes the allocated page (the old page count) as its tail, counts the record, and returns that page. Both lines 183 and 187 change. | high; not executed | HashTable.HtInsertEntry, shown by HashTable.HtOverflowMisdirected and HashTable.NoBumpStillMisses | HashTable.HtInsertEntryFixed, with HashTable.HtFixedLookupAfterInsert |
| src/ht_table.c:236 | `count++` sits outside the match test, so the lookup returns the number of pages inspected, always 1. | A fresh two-bucket table, where key 0 has no record, and the same table with six key-0 records on bucket 0's page: both return 1. | Count the matching records. | high; not executed | HashTable.HtGetAllEntries, shown by HashTable.HtLookupCountIgnoresMatches | HashTable.HtGetAllEntriesFixed |

=== FILE: block_layout.dfy ===
/** The block layout shared by the heap file, the primary hash table and the
    secondary index: fixed-size pages handed out by the block manager, a header
    page 0 holding integer fields, and data pages holding a record count followed
    by packed fixed-width records.

    The block manager itself is abstracted as a sequence of pages indexed by page
    number; allocating a block appends a page, so the new page's number is the
    old length of the sequence. */
module BlockLayout {

  /** BF_BLOCK_SIZE of the block-manager library. */
  const BlockSize: int := 512
  /** sizeof(int): the width of every integer field on a page. */
  const IntSize: int := 4
  /** The record width written at file creation: 15 + 4 + 15 + 20 + 20 bytes. */
  const RecordSize: int := 74
  /** size_t is 64 bits wide; the capacity test is evaluated in that type. */
  const SizeModulus: int := 0x1_0000_0000_0000_0000
  /** unsigned int is 32 bits wide; the string hash wraps modulo this. */
  const UintModulus: int := 0x1_0000_0000

  datatype Option<+T> = None | Some(value: T)

  /** A C `char`, signed as on the usual ABIs. */
  newtype CChar = c: int | -128 <= c < 128

  /** The characters of a NUL-terminated C string, without the terminator. */
  type CString = s: seq<CChar> | 0 !in s

  /** A record: the primary key `id`, the secondary key `name`, and the other
      fixed-width fields, which the stores only carry around. */
  datatype Record = Record(id: int, name: CString, surname: CString, city: CString)

  /** The metadata a hash-table bucket page holds at bytes 4 and 8. */
  datatype BucketMeta = BucketMeta(recordSize: int, numBlocks: int)

  /** A header page holds integer fields, keyed by their index (byte offset / 4);
      a field never written is absent. A data page holds its records; its count
      field at byte 0 is always the number of records written to it. `meta` is the
      bucket metadata at bytes 4..12, present only while no record overlays it. */
  datatype Page =
    | HeaderPage(words: map<nat, int>)
    | DataPage(records: seq<Record>, meta: Option<BucketMeta>)

  type Store = seq<Page>

  /** The capacity test `BF_BLOCK_SIZE - sizeof(int) - n * rs >= rs` of a page
      holding `n` records. Because `sizeof` yields a size_t, both sides are
      unsigned 64-bit values: the subtraction wraps instead of going negative. */
  predicate Fits(n: int, rs: int)
  {
    (BlockSize - IntSize - n * rs) % SizeModulus >= rs % SizeModulus
  }

  /** The number of records a data page can hold after its count field. */
  function MaxRecords(rs: int): (m: int)
    requires 0 < rs
    ensures 0 <= m && m * rs <= BlockSize - IntSize < (m + 1) * rs
  {
    (BlockSize - IntSize) / rs
  }

  /** Below capacity, the unsigned test means what it says: a record fits in a
      page holding `n` records exactly when the page is not yet full, so no page
      that starts within capacity is ever filled beyond it. */
  lemma FitsBelowCapacity(n: int, rs: int)
    requires 0 < rs < 0x8000_0000
    requires 0 <= n <= MaxRecords(rs)
    ensures Fits(n, rs) <==> BlockSize - IntSize - n * rs >= rs
    ensures Fits(n, rs) <==> n < MaxRecords(rs)
  {
    var m := MaxRecords(rs);
    var used := n * rs;
    MulMonotone(n, m, rs);
    assert (n + 1) * rs == used + rs;
    ModSmall(BlockSize - IntSize - used);
    ModSmall(rs);
    if n < m {
      MulMonotone(n + 1, m, rs);
    } else {
      assert n == m;
    }
  }

  lemma ModSmall(x: int)
    requires 0 <= x < SizeModulus
    ensures x % SizeModulus == x
  {
  }

  lemma MulMonotone(a: int, b: int, c: int)
    requires 0 <= a <= b && 0 <= c
    ensures a * c <= b * c
  {
  }

  /** The capacity test is only sound below capacity: a page that somehow held
      seven 74-byte records would pass it again, because the unsigned
      subtraction wraps around. */
  lemma FitsWrapsPastCapacity()
    ensures MaxRecords(RecordSize) == 6
    ensures !Fits(6, RecordSize)
    ensures Fits(7, RecordSize)
  {
  }

  /** The byte offset of record slot `n` on a data page: after the count
      field, `n` records of RecordSize bytes each. */
  function SlotStart(n: int): int
  {
    IntSize + n * RecordSize
  }

  /** Whether the bytes of record slot `n` overlap the bucket metadata, the
      two integer fields at bytes 4..12 of a bucket page. */
  predicate OverlapsMeta(n: int)
  {
    SlotStart(n) < 3 * IntSize && IntSize < SlotStart(n) + RecordSize
  }

  /** Of all record slots, only the first overlaps the bucket metadata. */
  lemma OnlyFirstSlotOverlapsMeta(n: int)
    requires 0 <= n
    ensures OverlapsMeta(n) <==> n == 0
  {
    if n > 0 {
      MulMonotone(1, n, RecordSize);
    }
  }

  /** Writes `rec` into the next free slot of a data page and bumps its count.
      The metadata survives only when the slot's bytes miss bytes 4..12;
      this is lost exactly when the page held no record before. */
  function WriteRecord(p: Page, rec: Record): (q: Page)
    requires p.DataPage?
    ensures q.DataPage? && q.records == p.records + [rec]
    ensures q.meta == (if |p.records| == 0 then None else p.meta)
  {
    OnlyFirstSlotOverlapsMeta(|p.records|);
    DataPage(p.records + [rec], if OverlapsMeta(|p.records|) then None else p.meta)
  }

  /** Overwrites some integer fields of a header page. */
  function SetWords(p: Page, w: map<nat, int>): (q: Page)
    requires p.HeaderPage?
    ensures q.HeaderPage?
    ensures forall k :: k in w ==> k in q.words && q.words[k] == w[k]
    ensures forall k :: k in p.words && k !in w ==> k in q.words && q.words[k] == p.words[k]
  {
    HeaderPage(p.words + w)
  }

  /** C's `/` on ints: the quotient truncates toward zero (unlike Dafny's
      Euclidean `/`). Only positive divisors occur in the stores. */
  function CQuot(a: int, b: int): int
    requires 0 < b
  {
    if a >= 0 then a / b else -((-a) / b)
  }

  /** C's `%` on ints: the remainder left by the truncating quotient, so it
      takes the sign of the dividend. */
  function CRem(a: int, b: int): (r: int)
    requires 0 < b
    ensures a == CQuot(a, b) * b + r
    ensures -b < r < b
    ensures a >= 0 ==> 0 <= r
    ensures a <= 0 ==> r <= 0
  {
    if a >= 0 then a % b else -((-a) % b)
  }

  /** A negative key has a negative remainder, which indexes before the start
      of the bucket array, unless the divisor divides it. */
  lemma CRemNegative(a: int, b: int)
    requires 0 < b && a < 0
    ensures CRem(a, b) < 0 <==> (-a) % b != 0
  {
  }

  /** A lookup key: the primary key of the heap file and the hash table, or the
      name the secondary index is keyed on. */
  datatype Key = ById(id: int) | ByName(name: CString)

  /** Whether a record carries the key: an `int` comparison for the primary
      key, a `strcmp` of zero for the name. */
  predicate Matches(r: Record, k: Key)
  {
    match k
    case ById(id) => r.id == id
    case ByName(name) => r.name == name
  }

  /** The records of `recs` that carry the key, in order. */
  function Hits(recs: seq<Record>, k: Key): (r: seq<Record>)
    ensures |r| <= |recs|
  {
    if |recs| == 0 then []
    else
      var last := recs[|recs| - 1];
      Hits(recs[..|recs| - 1], k) + (if Matches(last, k) then [last] else [])
  }

  /** Matching over consecutive pages adds up the matches of each page. */
  lemma {:induction false} HitsConcat(a: seq<Record>, b: seq<Record>, k: Key)
    ensures Hits(a + b, k) == Hits(a, k) + Hits(b, k)
    decreases |b|
  {
    if |b| == 0 {
      assert a + b == a;
    } else {
      var b' := b[..|b| - 1];
      assert (a + b)[..|a + b| - 1] == a + b';
      HitsConcat(a, b', k);
    }
  }

  /** The hits are exactly the members of `recs` that carry the key. */
  lemma {:induction false} HitsContents(recs: seq<Record>, k: Key)
    ensures forall x :: x in Hits(recs, k) <==> x in recs && Matches(x, k)
  {
    if |recs| > 0 {
      var init := recs[..|recs| - 1];
      HitsContents(init, k);
      assert recs == init + [recs[|recs| - 1]];
    }
  }

  /** A lookup finds nothing exactly when no record carries the key. */
  lemma NoHitsIff(recs: seq<Record>, k: Key)
    ensures |Hits(recs, k)| == 0 <==> forall x :: x in recs ==> !Matches(x, k)
  {
    HitsContents(recs, k);
    var hits := Hits(recs, k);
    if |hits| != 0 {
      assert hits[0] in hits;
    }
  }

  /** Extending a scanned prefix by one record adds that record to the hits
      exactly when it matches. */
  lemma HitsStep(recs: seq<Record>, i: int, k: Key)
    requires 0 <= i < |recs|
    ensures Hits(recs[..i + 1], k)
         == Hits(recs[..i], k) + (if Matches(recs[i], k) then [recs[i]] else [])
  {
    assert recs[..i + 1][..i] == recs[..i];
  }
}

=== FILE: hash_table.dfy ===
/** The static primary hash table. Page 0 holds num_buckets; bucket i starts on
    page i + 1, which holds (num_records, record_size, num_blocks) at bytes 0, 4
    and 8, num_blocks being the number of the bucket's tail page. The handle
    caches that triple per bucket. Insert and lookup only ever look at the tail
    page of the key's bucket `id % num_buckets`.

    The model follows the code as written, including two behaviours that look
    unintended: an overflow updates the metadata of bucket `bucket + 1`, and a
    lookup returns the number of pages it inspected (always 1) rather than the
    number of matches. Corrected versions of both are modelled alongside. */
module HashTable {
  import opened BlockLayout

  /** The cached metadata of one bucket; `numBlocks` is its tail page. */
  datatype BucketInfo = BucketInfo(numRecords: int, recordSize: int, numBlocks: int)

  /** The open-table handle. */
  datatype HtInfo = HtInfo(numBuckets: int, table: seq<BucketInfo>)

  /** An open hash table: its pages together with its handle. */
  datatype HtState = HtState(store: Store, info: HtInfo)

  /** The length of an array of `n` elements when `n` may be negative: a loop
      `for (i = 0; i < n; i++)` runs zero times then. */
  function Max0(n: int): nat
  {
    if n < 0 then 0 else n
  }

  /** The bucket of a key: C's `id % num_buckets`. */
  function Bucket(id: int, numBuckets: int): (b: int)
    requires 0 < numBuckets
    ensures 0 <= id ==> 0 <= b < numBuckets
    ensures id < 0 ==> b <= 0
    ensures b == CRem(id, numBuckets)
  {
    CRem(id, numBuckets)
  }

  /** The handle that opening a freshly created table yields: bucket i has no
      records, record size 74 and tail page i + 1. */
  function FreshInfo(buckets: int): HtInfo
  {
    HtInfo(buckets, seq(Max0(buckets), i => BucketInfo(0, RecordSize, i + 1)))
  }

  /** Page 0 is a header carrying num_buckets, and every bucket page it implies exists. */
  predicate HtOpenable(s: Store)
  {
    && |s| > 0
    && s[0].HeaderPage?
    && 0 in s[0].words
    && s[0].words[0] < |s|
    && forall k :: 1 <= k <= s[0].words[0] ==> s[k].DataPage?
  }

  /** HT_CreateFile: page 0 holds `buckets`; page i + 1 is bucket i's empty
      page carrying (0, 74, i + 1). Opening it again yields the fresh handle. */
  function HtCreateFile(buckets: int): (s: Store)
    ensures |s| == 1 + Max0(buckets)
    ensures HtOpenable(s) && HtOpenFile(s) == Some(FreshInfo(buckets))
  {
    var s := [HeaderPage(map[0 := buckets])] + seq(Max0(buckets), i => DataPage([], Some(BucketMeta(RecordSize, i + 1))));
    assert forall k :: 1 <= k < |s| ==> s[k] == DataPage([], Some(BucketMeta(RecordSize, k)));
    assert HtOpenFile(s).value.table == FreshInfo(buckets).table;
    s
  }

  /** HT_OpenFile: reads num_buckets from page 0 and each bucket's triple
      from its page. The record size and tail number are read from bytes 4 and
      8, which the first record written to the page overlays; once that has
      happened the model does not say what is read, and opening yields None. */
  function HtOpenFile(s: Store): (r: Option<HtInfo>)
    requires HtOpenable(s)
    ensures r.Some? <==> forall k :: 1 <= k <= s[0].words[0] ==> s[k].meta.Some?
    ensures r.Some? ==> r.value.numBuckets == s[0].words[0]
    ensures r.Some? ==> |r.value.table| == Max0(s[0].words[0])
    ensures r.Some? ==> forall i :: 0 <= i < |r.value.table| ==>
      && r.value.table[i].numRecords == |s[i + 1].records|
      && Some(BucketMeta(r.value.table[i].recordSize, r.value.table[i].numBlocks)) == s[i + 1].meta
  {
    var nb := s[0].words[0];
    if forall k :: 1 <= k <= nb ==> s[k].meta.Some? then
      Some(HtInfo(nb, seq(Max0(nb), i requires 0 <= i < Max0(nb) =>
        BucketInfo(|s[i + 1].records|, s[i + 1].meta.value.recordSize, s[i + 1].meta.value.numBlocks))))
    else
      None
  }

  /** What every operation on an open table needs from the block manager:
      page 0 is the header, every later page is a data page, and every
      bucket's tail page exists. */
  predicate HtWf(st: HtState)
  {
    var s := st.store;
    var t := st.info.table;
    && 0 < st.info.numBuckets
    && |t| == st.info.numBuckets
    && |s| > 0
    && s[0].HeaderPage?
    && (forall k :: 1 <= k < |s| ==> s[k].DataPage?)
    && (forall i :: 0 <= i < |t| ==> 1 <= t[i].numBlocks < |s|)
  }

  /** The invariant tables built by create, open and insert keep: besides
      HtWf, every bucket's record size is 74, no page holds more records than
      fit, and every stored record's key has a bucket in range. */
  predicate HtInv(st: HtState)
  {
    var s := st.store;
    && HtWf(st)
    && (forall i :: 0 <= i < |st.info.table| ==> st.info.table[i].recordSize == RecordSize)
    && (forall k :: 1 <= k < |s| ==> |s[k].records| <= MaxRecords(RecordSize))
    && KeysInRange(st)
  }

  /** Every stored record's key has a bucket in range, so looking it up
      indexes the bucket array within bounds. */
  predicate KeysInRange(st: HtState)
    requires HtWf(st)
  {
    forall k, j :: 1 <= k < |st.store| && 0 <= j < |st.store[k].records| ==>
      0 <= Bucket(st.store[k].records[j].id, st.info.numBuckets)
  }

  /** The tail page of a key's bucket. */
  function Tail(st: HtState, id: int): (t: int)
    requires HtWf(st) && 0 <= Bucket(id, st.info.numBuckets)
    ensures 1 <= t < |st.store| && st.store[t].DataPage?
  {
    st.info.table[Bucket(id, st.info.numBuckets)].numBlocks
  }

  /** The capacity test HT_InsertEntry applies to the tail page of the key's bucket. */
  predicate TailFits(st: HtState, id: int)
    requires HtWf(st) && 0 <= Bucket(id, st.info.numBuckets)
  {
    Fits(|st.store[Tail(st, id)].records|, st.info.table[Bucket(id, st.info.numBuckets)].recordSize)
  }

  /** When HT_InsertEntry is defined: the key's bucket is in range, and if the
      tail page is full, the bucket after it (whose metadata the overflow path
      updates) exists too. */
  predicate HtInsertable(st: HtState, rec: Record)
  {
    && HtWf(st)
    && 0 <= Bucket(rec.id, st.info.numBuckets)
    && (TailFits(st, rec.id) || Bucket(rec.id, st.info.numBuckets) + 1 < st.info.numBuckets)
  }

  /** HT_InsertEntry, as written. Only the tail page of bucket b is tried;
      its loop runs exactly once.
      - Room on the tail: the record is appended there, bucket b's cached
        num_records grows by one and is written to header field 1, and the
        tail page number is returned. No other bucket's metadata changes.
      - No room: the record goes alone into a newly allocated page, but it is
        bucket b + 1 whose num_blocks and num_records grow (and are written to
        header fields 2 and 1); bucket b is left as it was. The value returned
        is bucket b + 1's new num_blocks.
      Either way no other data page changes. */
  function HtInsertEntry(st: HtState, rec: Record): (r: (HtState, int))
    requires HtInsertable(st, rec)
    ensures var (st', blockId) := r;
      var b := Bucket(rec.id, st.info.numBuckets);
      var s, s', t, t' := st.store, st'.store, st.info.table, st'.info.table;
      && st'.info.numBuckets == st.info.numBuckets
      && |t'| == |t|
      && HtWf(st')
      && |s'| >= |s|
      && (0 in s[0].words ==> 0 in s'[0].words && s'[0].words[0] == s[0].words[0])
      && (TailFits(st, rec.id) ==>
            && blockId == t[b].numBlocks
            && |s'| == |s|
            && s'[blockId].records == s[blockId].records + [rec]
            && (forall k :: 1 <= k < |s| && k != blockId ==> s'[k] == s[k])
            && t'[b] == t[b].(numRecords := t[b].numRecords + 1)
            && (forall i :: 0 <= i < |t| && i != b ==> t'[i] == t[i])
            && 1 in s'[0].words && s'[0].words[1] == t'[b].numRecords)
      && (!TailFits(st, rec.id) ==>
            && |s'| == |s| + 1
            && s'[|s|] == DataPage([rec], None)
            && (forall k :: 1 <= k < |s| ==> s'[k] == s[k])
            && t'[b] == t[b]
            && t'[b + 1] == t[b + 1].(numRecords := t[b + 1].numRecords + 1, numBlocks := t[b + 1].numBlocks + 1)
            && (forall i :: 0 <= i < |t| && i != b + 1 ==> t'[i] == t[i])
            && blockId == t'[b + 1].numBlocks
            && 1 in s'[0].words && s'[0].words[1] == t'[b + 1].numRecords
            && 2 in s'[0].words && s'[0].words[2] == t'[b + 1].numBlocks)
  {
    var s := st.store;
    var t := st.info.table;
    var b := Bucket(rec.id, st.info.numBuckets);
    var tail := t[b].numBlocks;
    if Fits(|s[tail].records|, t[b].recordSize) then
      var bi := t[b].(numRecords := t[b].numRecords + 1);
      var s1 := s[tail := WriteRecord(s[tail], rec)];
      (HtState(s1[0 := SetWords(s1[0], map[1 := bi.numRecords])], st.info.(table := t[b := bi])), tail)
    else
      var s1 := s + [DataPage([rec], None)];
      var n := b + 1;
      var bn := t[n].(numRecords := t[n].numRecords + 1, numBlocks := t[n].numBlocks + 1);
      (HtState(s1[0 := SetWords(s1[0], map[2 := bn.numBlocks, 1 := bn.numRecords])], st.info.(table := t[n := bn])), bn.numBlocks)
  }

  /** The records of the key's tail page that carry the key: what a lookup
      can see. */
  function HtTailHits(st: HtState, id: int): seq<Record>
    requires HtWf(st) && 0 <= Bucket(id, st.info.numBuckets)
  {
    Hits(st.store[Tail(st, id)].records, ById(id))
  }

  /** HT_GetAllEntries, as written. It inspects exactly one page, the tail of
      the key's bucket, and reports (`found`, the records it prints) the
      records there that carry the key; but `count` is incremented once per
      inspected page, outside the match test, so it is 1 whatever was found. */
  method HtGetAllEntries(st: HtState, id: int) returns (count: int, found: seq<Record>)
    requires HtWf(st) && 0 <= Bucket(id, st.info.numBuckets)
    ensures count == 1
    ensures found == HtTailHits(st, id)
  {
    var key := Bucket(id, st.info.numBuckets);
    var tail := st.info.table[key].numBlocks;
    count := 0;
    found := [];
    var blockNum := tail;
    while blockNum <= tail
      invariant tail <= blockNum <= tail + 1
      invariant count == blockNum - tail
      invariant found == if blockNum == tail then [] else HtTailHits(st, id)
    {
      var recs := st.store[blockNum].records;
      var i := 0;
      while i < |recs|
        invariant 0 <= i <= |recs|
        invariant found == Hits(recs[..i], ById(id))
      {
        HitsStep(recs, i, ById(id));
        if recs[i].id == id {
          found := found + [recs[i]];
        }
        i := i + 1;
      }
      assert recs[..|recs|] == recs;
      count := count + 1;
      blockNum := blockNum + 1;
    }
  }

  /** Opening a freshly created table gives a handle satisfying the table invariant. */
  lemma HtCreateThenOpen(buckets: int)
    requires 0 < buckets
    ensures HtInv(HtState(HtCreateFile(buckets), FreshInfo(buckets)))
  {
  }

  /** Insertion keeps the table invariant. */
  lemma HtInsertPreservesInv(st: HtState, rec: Record)
    requires HtInv(st) && HtInsertable(st, rec)
    ensures HtInv(HtInsertEntry(st, rec).0)
  {
    var (st', blockId) := HtInsertEntry(st, rec);
    var s, s' := st.store, st'.store;
    if TailFits(st, rec.id) {
      FitsBelowCapacity(|s[blockId].records|, RecordSize);
      forall k, j | 1 <= k < |s'| && 0 <= j < |s'[k].records|
        ensures 0 <= Bucket(s'[k].records[j].id, st.info.numBuckets)
      {
        if k == blockId && j == |s[k].records| {
          assert s'[k].records[j] == rec;
        } else {
          assert s'[k].records[j] == s[k].records[j];
        }
      }
    } else {
      forall k, j | 1 <= k < |s'| && 0 <= j < |s'[k].records|
        ensures 0 <= Bucket(s'[k].records[j].id, st.info.numBuckets)
      {
        if k == |s| {
          assert s'[k].records[j] == rec;
        } else {
          assert s'[k].records[j] == s[k].records[j];
        }
      }
    }
  }

  /** A lookup right after an insert that found room on the tail page sees
      the inserted record. */
  lemma HtLookupAfterInsert(st: HtState, rec: Record)
    requires HtInsertable(st, rec) && TailFits(st, rec.id)
    ensures rec in HtTailHits(HtInsertEntry(st, rec).0, rec.id)
  {
    var st' := HtInsertEntry(st, rec).0;
    var recs := st'.store[Tail(st', rec.id)].records;
    HitsContents(recs, ById(rec.id));
    assert recs[|recs| - 1] == rec;
  }

  /** The create/open round trip only holds before the first insert: the
      first record written to a bucket page overlays the record size and tail
      number stored at bytes 4 and 8, so a table reopened after any insert no
      longer reads back the metadata it was created with. */
  lemma HtReopenAfterInsert(buckets: int, rec: Record)
    requires 0 < buckets && 0 <= Bucket(rec.id, buckets)
    ensures var st := HtState(HtCreateFile(buckets), FreshInfo(buckets));
      && HtInsertable(st, rec)
      && TailFits(st, rec.id)
      && var s' := HtInsertEntry(st, rec).0.store;
         HtOpenable(s') && HtOpenFile(s') == None
  {
    var st := HtState(HtCreateFile(buckets), FreshInfo(buckets));
    var b := Bucket(rec.id, buckets);
    assert st.store[b + 1].records == [];
    assert Fits(0, RecordSize);
    var s' := HtInsertEntry(st, rec).0.store;
    assert s'[b + 1].meta == None;
  }

  /** A scenario: four buckets, records with ids 1, 5 and 9 all land on
      bucket 1's page 2, whose count becomes 3; a lookup of 5 then sees exactly
      one record there (and, as written, also returns 1). */
  lemma HtScenarioThreeInserts(r1: Record, r2: Record, r3: Record)
    requires r1.id == 1 && r2.id == 5 && r3.id == 9
    ensures var st0 := HtState(HtCreateFile(4), FreshInfo(4));
      && HtInsertable(st0, r1)
      && var st1 := HtInsertEntry(st0, r1).0;
      && HtInsertable(st1, r2)
      && var st2 := HtInsertEntry(st1, r2).0;
      && HtInsertable(st2, r3)
      && var st3 := HtInsertEntry(st2, r3).0;
      && st3.store[2].records == [r1, r2, r3]
      && st3.info.table[1].numRecords == 3
      && Tail(st3, 5) == 2
      && HtTailHits(st3, 5) == [r2]
  {
    var st0 := HtState(HtCreateFile(4), FreshInfo(4));
    assert Bucket(1, 4) == 1 && Bucket(5, 4) == 1 && Bucket(9, 4) == 1;
    assert st0.store[2].records == [] && st0.info.table[1] == BucketInfo(0, RecordSize, 2);
    InPlaceStep(st0, r1);
    var st1 := HtInsertEntry(st0, r1).0;
    assert st1.store[2].records == [r1] && st1.info.table[1] == BucketInfo(1, RecordSize, 2);
    InPlaceStep(st1, r2);
    var st2 := HtInsertEntry(st1, r2).0;
    assert st2.store[2].records == [r1, r2] && st2.info.table[1] == BucketInfo(2, RecordSize, 2);
    InPlaceStep(st2, r3);
    var st3 := HtInsertEntry(st2, r3).0;
    assert st3.store[2].records == [r1, r2, r3] && st3.info.table[1] == BucketInfo(3, RecordSize, 2);
    HitsOfScenario(r1, r2, r3);
  }

  lemma HitsOfScenario(r1: Record, r2: Record, r3: Record)
    requires r1.id == 1 && r2.id == 5 && r3.id == 9
    ensures Hits([r1, r2, r3], ById(5)) == [r2]
  {
    var recs := [r1, r2, r3];
    assert recs[..2] == [r1, r2] && recs[..2][..1] == [r1] && recs[..2][..1][..0] == [];
    assert Hits([r1], ById(5)) == [];
    assert Hits([r1, r2], ById(5)) == [r2];
  }

  /** An insert whose tail page is below capacity happens in place: the
      record is appended to the tail, only that bucket's count grows, and
      every bucket keeps its tail. */
  lemma InPlaceStep(st: HtState, rec: Record)
    requires HtWf(st) && 0 <= Bucket(rec.id, st.info.numBuckets)
    requires st.info.table[Bucket(rec.id, st.info.numBuckets)].recordSize == RecordSize
    requires |st.store[Tail(st, rec.id)].records| < MaxRecords(RecordSize)
    ensures HtInsertable(st, rec)
    ensures var st' := HtInsertEntry(st, rec).0;
      var b := Bucket(rec.id, st.info.numBuckets);
      && HtWf(st')
      && st'.info.numBuckets == st.info.numBuckets
      && |st'.store| == |st.store|
      && st'.info.table[b] == st.info.table[b].(numRecords := st.info.table[b].numRecords + 1)
      && (forall i :: 0 <= i < st.info.numBuckets && i != b ==> st'.info.table[i] == st.info.table[i])
      && st'.store[Tail(st, rec.id)].records == st.store[Tail(st, rec.id)].records + [rec]
      && (forall k :: 1 <= k < |st.store| && k != Tail(st, rec.id) ==> st'.store[k] == st.store[k])
  {
    HtRoomOnTail(st, rec);
  }

  /** A tail page below capacity takes the record in place. */
  lemma HtRoomOnTail(st: HtState, rec: Record)
    requires HtWf(st) && 0 <= Bucket(rec.id, st.info.numBuckets)
    requires st.info.table[Bucket(rec.id, st.info.numBuckets)].recordSize == RecordSize
    requires |st.store[Tail(st, rec.id)].records| < MaxRecords(RecordSize)
    ensures HtInsertable(st, rec) && TailFits(st, rec.id)
  {
    FitsBelowCapacity(|st.store[Tail(st, rec.id)].records|, RecordSize);
  }

  /** A two-bucket table whose bucket 0 tail, page 1, holds six key-0
      records and is full; FullBucketZeroReachable shows six inserts into a
      fresh table reach it. */
  function FullBucketZero(): HtState
  {
    HtState(
      [HeaderPage(map[0 := 2, 1 := 6]),
       DataPage(seq(6, _ => Record(0, [], [], [])), None),
       DataPage([], Some(BucketMeta(RecordSize, 2)))],
      HtInfo(2, [BucketInfo(6, RecordSize, 1), BucketInfo(0, RecordSize, 2)]))
  }

  /** The two-bucket table after `k` inserts of the key-0 record `r`: they
      all land on bucket 0's page 1, and the first one overlays its metadata. */
  function ZeroBucketAfter(k: int, r: Record): HtState
  {
    HtState(
      [HeaderPage(if k == 0 then map[0 := 2] else map[0 := 2, 1 := k]),
       DataPage(seq(Max0(k), _ => r), if k == 0 then Some(BucketMeta(RecordSize, 1)) else None),
       DataPage([], Some(BucketMeta(RecordSize, 2)))],
      HtInfo(2, [BucketInfo(k, RecordSize, 1), BucketInfo(0, RecordSize, 2)]))
  }

  /** One more key-0 insert into a bucket below capacity goes onto page 1. */
  lemma ZeroBucketStep(k: int, r: Record)
    requires 0 <= k < MaxRecords(RecordSize) && r.id == 0
    ensures HtInsertable(ZeroBucketAfter(k, r), r)
    ensures HtInsertEntry(ZeroBucketAfter(k, r), r).0 == ZeroBucketAfter(k + 1, r)
  {
    var st := ZeroBucketAfter(k, r);
    assert Bucket(0, 2) == 0;
    HtRoomOnTail(st, r);
    var st' := HtInsertEntry(st, r).0;
    var want := ZeroBucketAfter(k + 1, r);
    assert st'.store[1].records == seq(k, _ => r) + [r];
    assert seq(k, _ => r) + [r] == seq(k + 1, _ => r);
    assert st'.store[0].words == want.store[0].words;
    assert st'.store == want.store;
  }

  /** The full bucket of the counterexamples below is reachable: it is what a
      freshly created two-bucket table holds after six inserts of key 0. */
  lemma FullBucketZeroReachable(r: Record)
    requires r == Record(0, [], [], [])
    ensures var st0 := HtState(HtCreateFile(2), FreshInfo(2));
      && HtInsertable(st0, r)
      && var st1 := HtInsertEntry(st0, r).0;
      && HtInsertable(st1, r)
      && var st2 := HtInsertEntry(st1, r).0;
      && HtInsertable(st2, r)
      && var st3 := HtInsertEntry(st2, r).0;
      && HtInsertable(st3, r)
      && var st4 := HtInsertEntry(st3, r).0;
      && HtInsertable(st4, r)
      && var st5 := HtInsertEntry(st4, r).0;
      && HtInsertable(st5, r)
      && HtInsertEntry(st5, r).0 == FullBucketZero()
  {
    var s0 := HtCreateFile(2);
    var z := ZeroBucketAfter(0, r);
    assert s0[1] == z.store[1] && s0[2] == z.store[2];
    assert s0 == z.store;
    assert FreshInfo(2).table == z.info.table;
    ZeroBucketStep(0, r);
    ZeroBucketStep(1, r);
    ZeroBucketStep(2, r);
    ZeroBucketStep(3, r);
    ZeroBucketStep(4, r);
    ZeroBucketStep(5, r);
    assert ZeroBucketAfter(6, r) == FullBucketZero();
  }

  /** As written, an overflow credits the next bucket: inserting a seventh
      key-0 record allocates page 3 for it, but bucket 0 keeps page 1 as its
      tail, bucket 1 (which owns no such record) takes page 3 as its tail and
      counts the record, and a lookup of key 0 no longer sees the record. */
  lemma HtOverflowMisdirected()
    ensures var rec := Record(0, [65], [], []);
      && HtInsertable(FullBucketZero(), rec)
      && !TailFits(FullBucketZero(), 0)
      && var (st', blockId) := HtInsertEntry(FullBucketZero(), rec);
      && st'.store[3] == DataPage([rec], None)
      && st'.info.table[0] == BucketInfo(6, RecordSize, 1)
      && st'.info.table[1] == BucketInfo(1, RecordSize, 3)
      && blockId == 3
      && rec !in HtTailHits(st', 0)
  {
    var rec := Record(0, [65], [], []);
    var st := FullBucketZero();
    assert Bucket(0, 2) == 0;
    assert !Fits(6, RecordSize);
    var st' := HtInsertEntry(st, rec).0;
    HitsContents(st'.store[1].records, ById(0));
  }

  /** HT_InsertEntry as evidently intended: on overflow the overflowing bucket
      itself takes the newly allocated page as its tail and counts the record,
      and the value returned is that page. The record then always lies on the
      page returned, which is its bucket's tail, and no other bucket changes. */
  function HtInsertEntryFixed(st: HtState, rec: Record): (r: (HtState, int))
    requires HtWf(st) && 0 <= Bucket(rec.id, st.info.numBuckets)
    ensures var (st', blockId) := r;
      var b := Bucket(rec.id, st.info.numBuckets);
      var t, t' := st.info.table, st'.info.table;
      && HtWf(st')
      && |st'.store| >= |st.store|
      && st'.info.numBuckets == st.info.numBuckets
      && t'[b].numBlocks == blockId
      && t'[b].numRecords == t[b].numRecords + 1
      && t'[b].recordSize == t[b].recordSize
      && (forall i :: 0 <= i < |t| && i != b ==> t'[i] == t[i])
      && 1 <= blockId < |st'.store|
      && st'.store[blockId].records == (if blockId < |st.store| then st.store[blockId].records else []) + [rec]
      && (forall k :: 1 <= k < |st.store| && k != blockId ==> st'.store[k] == st.store[k])
  {
    var s := st.store;
    var t := st.info.table;
    var b := Bucket(rec.id, st.info.numBuckets);
    var tail := t[b].numBlocks;
    if Fits(|s[tail].records|, t[b].recordSize) then
      var bi := t[b].(numRecords := t[b].numRecords + 1);
      var s1 := s[tail := WriteRecord(s[tail], rec)];
      (HtState(s1[0 := SetWords(s1[0], map[1 := bi.numRecords])], st.info.(table := t[b := bi])), tail)
    else
      var s1 := s + [DataPage([rec], None)];
      var bi := t[b].(numRecords := t[b].numRecords + 1, numBlocks := |s|);
      (HtState(s1[0 := SetWords(s1[0], map[2 := bi.numBlocks, 1 := bi.numRecords])], st.info.(table := t[b := bi])), |s|)
  }

  /** The overflow path with only `bucket++` removed: the overflowing bucket
      is updated, but its tail still becomes num_blocks + 1. */
  function HtInsertNoBump(st: HtState, rec: Record): HtState
    requires HtWf(st) && 0 <= Bucket(rec.id, st.info.numBuckets)
  {
    var s := st.store;
    var t := st.info.table;
    var b := Bucket(rec.id, st.info.numBuckets);
    if Fits(|s[t[b].numBlocks].records|, t[b].recordSize) then
      HtInsertEntryFixed(st, rec).0
    else
      var s1 := s + [DataPage([rec], None)];
      var bi := t[b].(numRecords := t[b].numRecords + 1, numBlocks := t[b].numBlocks + 1);
      HtState(s1[0 := SetWords(s1[0], map[2 := bi.numBlocks, 1 := bi.numRecords])], st.info.(table := t[b := bi]))
  }

  /** Removing `bucket++` alone does not repair the overflow: the full
      bucket 0 takes page 2, which is bucket 1's page, as its tail, the record
      lies on page 3, and a lookup of key 0 still misses it. */
  lemma NoBumpStillMisses()
    ensures var rec := Record(0, [65], [], []);
      && HtWf(FullBucketZero()) && Bucket(0, 2) == 0
      && var st' := HtInsertNoBump(FullBucketZero(), rec);
      && HtWf(st')
      && st'.info.table[0].numBlocks == 2
      && st'.store[2].records == []
      && st'.store[3] == DataPage([rec], None)
      && rec !in HtTailHits(st', 0)
  {
    var rec := Record(0, [65], [], []);
    assert !Fits(6, RecordSize);
    var st' := HtInsertNoBump(FullBucketZero(), rec);
    assert st'.store[Tail(st', 0)].records == [];
  }

  /** With the correction, a lookup right after any insert sees the record,
      whether or not the tail page had room. */
  lemma HtFixedLookupAfterInsert(st: HtState, rec: Record)
    requires HtWf(st) && 0 <= Bucket(rec.id, st.info.numBuckets)
    ensures rec in HtTailHits(HtInsertEntryFixed(st, rec).0, rec.id)
  {
    var (st', blockId) := HtInsertEntryFixed(st, rec);
    var recs := st'.store[Tail(st', rec.id)].records;
    HitsContents(recs, ById(rec.id));
    assert recs[|recs| - 1] == rec;
  }

  /** As written, a lookup's result does not depend on the matches: on the
      fresh two-bucket table key 0 has no record, on the full one it has six,
      and HT_GetAllEntries returns 1 for both. */
  lemma HtLookupCountIgnoresMatches()
    ensures var st0 := HtState(HtCreateFile(2), FreshInfo(2));
      && HtWf(st0) && Bucket(0, 2) == 0
      && |HtTailHits(st0, 0)| == 0
      && HtWf(FullBucketZero())
      && |HtTailHits(FullBucketZero(), 0)| == 6
  {
    var full := FullBucketZero();
    var recs := full.store[1].records;
    var i := 0;
    while i < 6
      invariant 0 <= i <= 6
      invariant Hits(recs[..i], ById(0)) == recs[..i]
    {
      HitsStep(recs, i, ById(0));
      i := i + 1;
    }
    assert recs[..6] == recs;
  }

  /** HT_GetAllEntries as evidently intended: the same single-page inspection,
      with the count raised only for a record that carries the key, so the
      result is the number of matching records on the tail page. */
  method HtGetAllEntriesFixed(st: HtState, id: int) returns (count: int, found: seq<Record>)
    requires HtWf(st) && 0 <= Bucket(id, st.info.numBuckets)
    ensures found == HtTailHits(st, id)
    ensures count == |found|
  {
    var recs := st.store[Tail(st, id)].records;
    count := 0;
    found := [];
    var i := 0;
    while i < |recs|
      invariant 0 <= i <= |recs|
      invariant found == Hits(recs[..i], ById(id))
      invariant count == |found|
    {
      HitsStep(recs, i, ById(id));
      if recs[i].id == id {
        found := found + [recs[i]];
        count := count + 1;
      }
      i := i + 1;
    }
    assert recs[..|recs|] == recs;
  }
}

=== FILE: heap_file.dfy ===
/** The heap file: an unordered record store. Page 0 is a header holding
    (record_size, num_records, num_blocks); pages 1..num_blocks are data pages.
    Insertion is first-fit across the data pages, appending a page when none has
    room; lookup by primary key is a full scan. The in-memory handle mirrors the
    header and is written through on every insert. */
module HeapFile {
  import opened BlockLayout

  /** The open-file handle: the header triple cached in memory. */
  datatype HpInfo = HpInfo(recordSize: int, numRecords: int, numBlocks: int)

  /** An open heap file: its pages together with its handle. */
  datatype HpState = HpState(store: Store, info: HpInfo)

  /** The header fields as laid out on page 0: record_size at byte 0,
      num_records at byte 4, num_blocks at byte 8. */
  function HeaderWords(info: HpInfo): map<nat, int>
  {
    map[0 := info.recordSize, 1 := info.numRecords, 2 := info.numBlocks]
  }

  /** Page 0 is a header page carrying all three fields. */
  predicate HpOpenable(s: Store)
  {
    && |s| > 0
    && s[0].HeaderPage?
    && 0 in s[0].words && 1 in s[0].words && 2 in s[0].words
  }

  /** The handle can reach every page it touches: the header page and data
      pages 1..num_blocks all exist. */
  predicate HpAccessible(st: HpState)
  {
    && |st.store| > 0
    && st.store[0].HeaderPage?
    && 0 <= st.info.numBlocks < |st.store|
    && forall k :: 1 <= k <= st.info.numBlocks ==> st.store[k].DataPage?
  }

  /** All records of data pages 1..n, page by page and in slot order. */
  function HpScan(s: Store, n: int): seq<Record>
    requires 0 <= n < |s|
    requires forall k :: 1 <= k <= n ==> s[k].DataPage?
  {
    if n == 0 then [] else HpScan(s, n - 1) + s[n].records
  }

  /** The invariant every heap file produced by create, open and insert keeps:
      the header page mirrors the handle, there are exactly num_blocks data
      pages, none holds more records than fit, and num_records counts the
      records of all data pages. */
  predicate HpValid(st: HpState)
  {
    var s := st.store;
    var info := st.info;
    && info.recordSize == RecordSize
    && 1 <= info.numBlocks
    && |s| == info.numBlocks + 1
    && s[0] == HeaderPage(HeaderWords(info))
    && (forall k :: 1 <= k < |s| ==> s[k].DataPage? && |s[k].records| <= MaxRecords(RecordSize))
    && info.numRecords == |HpScan(s, info.numBlocks)|
  }

  /** HP_CreateFile: a header page (74, 0, 1) followed by one empty data page.
      Opening the result yields exactly that triple, and the pair is a valid
      heap file in which no key has any record. */
  function HpCreateFile(): (s: Store)
    ensures |s| == 2 && s[1] == DataPage([], None)
    ensures HpOpenable(s) && HpOpenFile(s) == HpInfo(RecordSize, 0, 1)
    ensures HpValid(HpState(s, HpOpenFile(s)))
    ensures HpScan(s, 1) == []
  {
    [HeaderPage(HeaderWords(HpInfo(RecordSize, 0, 1))), DataPage([], None)]
  }

  /** HP_OpenFile: reads the header triple of page 0 into a handle. */
  function HpOpenFile(s: Store): (info: HpInfo)
    requires HpOpenable(s)
    ensures HeaderWords(info) == s[0].words - (s[0].words.Keys - {0, 1, 2})
  {
    HpInfo(s[0].words[0], s[0].words[1], s[0].words[2])
  }

  /** The for loop of HP_InsertEntry: the lowest-numbered page among k..nb
      whose capacity test passes, or None when all of them are full. */
  function FirstFit(s: Store, rs: int, k: int, nb: int): (r: Option<int>)
    requires 1 <= k
    requires nb < |s|
    requires forall j :: k <= j <= nb ==> s[j].DataPage?
    ensures r.Some? ==> k <= r.value <= nb && Fits(|s[r.value].records|, rs)
    ensures r.Some? ==> forall j :: k <= j < r.value ==> !Fits(|s[j].records|, rs)
    ensures r.None? ==> forall j :: k <= j <= nb ==> !Fits(|s[j].records|, rs)
    decreases nb - k
  {
    if k > nb then None
    else if Fits(|s[k].records|, rs) then Some(k)
    else FirstFit(s, rs, k + 1, nb)
  }

  /** The page an insert would place a record in, if any page 1..num_blocks has room. */
  function HpFreeBlock(st: HpState): Option<int>
    requires HpAccessible(st)
  {
    FirstFit(st.store, st.info.recordSize, 1, st.info.numBlocks)
  }

  /** HP_InsertEntry. The record goes after the existing records of the first
      page with room; when every page is full it goes alone into a newly
      allocated page. Either way num_records grows by one in the handle and in
      header field 1, and num_blocks grows (handle and header field 2) exactly
      when a page is allocated. No other data page changes. */
  function HpInsertEntry(st: HpState, rec: Record): (st': HpState)
    requires HpAccessible(st)
    ensures st'.info.recordSize == st.info.recordSize
    ensures st'.info.numRecords == st.info.numRecords + 1
    ensures |st'.store| >= |st.store| && st'.store[0].HeaderPage?
    ensures 1 in st'.store[0].words && st'.store[0].words[1] == st'.info.numRecords
    ensures 0 in st.store[0].words ==> 0 in st'.store[0].words && st'.store[0].words[0] == st.store[0].words[0]
    ensures HpFreeBlock(st).Some? ==>
      var k := HpFreeBlock(st).value;
      && |st'.store| == |st.store|
      && st'.info.numBlocks == st.info.numBlocks
      && st'.store[k].DataPage? && st'.store[k].records == st.store[k].records + [rec]
      && forall j :: 1 <= j < |st.store| && j != k ==> st'.store[j] == st.store[j]
    ensures HpFreeBlock(st).None? ==>
      && |st'.store| == |st.store| + 1
      && st'.info.numBlocks == st.info.numBlocks + 1
      && st'.store[|st.store|] == DataPage([rec], None)
      && 2 in st'.store[0].words && st'.store[0].words[2] == st'.info.numBlocks
      && forall j :: 1 <= j < |st.store| ==> st'.store[j] == st.store[j]
  {
    var s := st.store;
    var info := st.info;
    match HpFreeBlock(st)
    case Some(k) =>
      var info' := info.(numRecords := info.numRecords + 1);
      var s1 := s[k := WriteRecord(s[k], rec)];
      HpState(s1[0 := SetWords(s1[0], map[1 := info'.numRecords])], info')
    case None =>
      var info' := info.(numRecords := info.numRecords + 1, numBlocks := info.numBlocks + 1);
      var s1 := s + [DataPage([rec], None)];
      HpState(s1[0 := SetWords(s1[0], map[2 := info'.numBlocks, 1 := info'.numRecords])], info')
  }

  /** HP_GetAllEntries: visits every record of pages 1..num_blocks and counts
      those whose id equals `id`; the count is zero exactly when no record
      carries that id. */
  method HpGetAllEntries(st: HpState, id: int) returns (count: int)
    requires HpAccessible(st)
    ensures count == |Hits(HpScan(st.store, st.info.numBlocks), ById(id))|
    ensures count == 0 <==> forall x :: x in HpScan(st.store, st.info.numBlocks) ==> x.id != id
  {
    var s := st.store;
    count := 0;
    var blockNum := 1;
    while blockNum <= st.info.numBlocks
      invariant 1 <= blockNum <= st.info.numBlocks + 1
      invariant count == |Hits(HpScan(s, blockNum - 1), ById(id))|
    {
      var c := CountPage(s[blockNum].records, id);
      assert HpScan(s, blockNum) == HpScan(s, blockNum - 1) + s[blockNum].records;
      HitsConcat(HpScan(s, blockNum - 1), s[blockNum].records, ById(id));
      count := count + c;
      blockNum := blockNum + 1;
    }
    NoHitsIff(HpScan(s, st.info.numBlocks), ById(id));
  }

  /** The record loop of one page: the number of its records whose id is `id`. */
  method CountPage(recs: seq<Record>, id: int) returns (count: int)
    ensures count == |Hits(recs, ById(id))|
  {
    count := 0;
    var i := 0;
    while i < |recs|
      invariant 0 <= i <= |recs|
      invariant count == |Hits(recs[..i], ById(id))|
    {
      HitsStep(recs, i, ById(id));
      if recs[i].id == id {
        count := count + 1;
      }
      i := i + 1;
    }
    assert recs[..|recs|] == recs;
  }

  /** The scan of pages 1..n only depends on those pages. */
  lemma {:induction false} ScanFrame(s: Store, s': Store, n: int)
    requires 0 <= n < |s| && n < |s'|
    requires forall k :: 1 <= k <= n ==> s[k].DataPage? && s'[k] == s[k]
    ensures HpScan(s', n) == HpScan(s, n)
    decreases n
  {
    if n > 0 {
      ScanFrame(s, s', n - 1);
    }
  }

  /** Appending `rec` to page t adds `rec` to the scan of every prefix of
      pages that includes t, and to no other. */
  lemma {:induction false} ScanAppendContents(s: Store, s': Store, t: int, rec: Record, n: int)
    requires 1 <= t < |s| == |s'| && 0 <= n < |s|
    requires forall k :: 1 <= k < |s| ==> s[k].DataPage? && s'[k].DataPage?
    requires s'[t].records == s[t].records + [rec]
    requires forall k :: 1 <= k < |s| && k != t ==> s'[k] == s[k]
    ensures multiset(HpScan(s', n)) == multiset(HpScan(s, n)) + (if t <= n then multiset{rec} else multiset{})
    decreases n
  {
    if n > 0 {
      ScanAppendContents(s, s', t, rec, n - 1);
    }
  }

  /** The same, for the records matching one key. */
  lemma {:induction false} ScanAppendHits(s: Store, s': Store, t: int, rec: Record, n: int, id: int)
    requires 1 <= t < |s| == |s'| && 0 <= n < |s|
    requires forall k :: 1 <= k < |s| ==> s[k].DataPage? && s'[k].DataPage?
    requires s'[t].records == s[t].records + [rec]
    requires forall k :: 1 <= k < |s| && k != t ==> s'[k] == s[k]
    ensures |Hits(HpScan(s', n), ById(id))| == |Hits(HpScan(s, n), ById(id))| + (if t <= n && rec.id == id then 1 else 0)
    decreases n
  {
    if n > 0 {
      ScanAppendHits(s, s', t, rec, n - 1, id);
      HitsConcat(HpScan(s', n - 1), s'[n].records, ById(id));
      HitsConcat(HpScan(s, n - 1), s[n].records, ById(id));
      if n == t {
        HitsConcat(s[t].records, [rec], ById(id));
        assert [rec][..0] == [];
      }
    }
  }

  /** Opening a valid heap file reproduces the handle it was written with:
      the header is written through on every insert. */
  lemma HpReopen(st: HpState)
    requires HpValid(st)
    ensures HpOpenable(st.store) && HpOpenFile(st.store) == st.info
  {
  }

  /** Insertion keeps the heap-file invariant; in particular a new page is
      numbered num_blocks + 1, and num_records keeps counting every stored record. */
  lemma HpInsertPreservesValid(st: HpState, rec: Record)
    requires HpValid(st)
    ensures HpValid(HpInsertEntry(st, rec))
    ensures HpFreeBlock(st).None? ==> |st.store| == st.info.numBlocks + 1
  {
    var st' := HpInsertEntry(st, rec);
    assert st'.store[0].words == HeaderWords(st'.info);
    if HpFreeBlock(st).Some? {
      InPlaceScan(st, rec);
      var k := HpFreeBlock(st).value;
      FitsBelowCapacity(|st.store[k].records|, RecordSize);
    } else {
      AppendedScan(st, rec);
    }
  }

  /** An insert into page k of a valid file adds the record to the full scan. */
  lemma InPlaceScan(st: HpState, rec: Record)
    requires HpValid(st) && HpFreeBlock(st).Some?
    ensures var st' := HpInsertEntry(st, rec);
      && HpAccessible(st') && st'.info.numBlocks == st.info.numBlocks
      && multiset(HpScan(st'.store, st'.info.numBlocks)) == multiset(HpScan(st.store, st.info.numBlocks)) + multiset{rec}
      && |HpScan(st'.store, st'.info.numBlocks)| == |HpScan(st.store, st.info.numBlocks)| + 1
      && forall id :: |Hits(HpScan(st'.store, st'.info.numBlocks), ById(id))|
                    == |Hits(HpScan(st.store, st.info.numBlocks), ById(id))| + (if rec.id == id then 1 else 0)
  {
    var st' := HpInsertEntry(st, rec);
    var s, s' := st.store, st'.store;
    var nb := st.info.numBlocks;
    var k := HpFreeBlock(st).value;
    ScanAppendContents(s, s', k, rec, nb);
    assert |multiset(HpScan(s', nb))| == |multiset(HpScan(s, nb))| + 1;
    forall id: int
      ensures |Hits(HpScan(s', nb), ById(id))| == |Hits(HpScan(s, nb), ById(id))| + (if rec.id == id then 1 else 0)
    {
      ScanAppendHits(s, s', k, rec, nb, id);
    }
  }

  /** An insert that allocates page num_blocks + 1 adds the record at the end
      of the full scan. */
  lemma AppendedScan(st: HpState, rec: Record)
    requires HpValid(st) && HpFreeBlock(st).None?
    ensures var st' := HpInsertEntry(st, rec);
      && HpAccessible(st') && st'.info.numBlocks == st.info.numBlocks + 1
      && HpScan(st'.store, st'.info.numBlocks) == HpScan(st.store, st.info.numBlocks) + [rec]
  {
    var st' := HpInsertEntry(st, rec);
    ScanFrame(st.store, st'.store, st.info.numBlocks);
  }

  /** A full scan after an insert holds exactly the records it held before
      plus the inserted one. */
  lemma HpInsertScan(st: HpState, rec: Record)
    requires HpValid(st)
    ensures var st' := HpInsertEntry(st, rec);
      multiset(HpScan(st'.store, st'.info.numBlocks)) == multiset(HpScan(st.store, st.info.numBlocks)) + multiset{rec}
  {
    if HpFreeBlock(st).Some? {
      InPlaceScan(st, rec);
    } else {
      AppendedScan(st, rec);
    }
  }

  /** Inserting a record with id k raises the number of records a lookup of k
      finds by exactly one, and leaves every other key's count unchanged. */
  lemma HpInsertCounts(st: HpState, rec: Record, id: int)
    requires HpValid(st)
    ensures var st' := HpInsertEntry(st, rec);
      |Hits(HpScan(st'.store, st'.info.numBlocks), ById(id))|
        == |Hits(HpScan(st.store, st.info.numBlocks), ById(id))| + (if rec.id == id then 1 else 0)
  {
    if HpFreeBlock(st).Some? {
      InPlaceScan(st, rec);
    } else {
      AppendedScan(st, rec);
      HitsConcat(HpScan(st.store, st.info.numBlocks), [rec], ById(id));
      assert [rec][..0] == [];
    }
  }

  /** A file whose only data page holds the maximum six records: the page is
      full, so the next insert allocates page 2 for the record and leaves the
      full page untouched. */
  lemma HpFullBlockOverflow(st: HpState, rec: Record)
    requires HpValid(st) && st.info.numBlocks == 1
    requires |st.store[1].records| == MaxRecords(RecordSize)
    ensures var st' := HpInsertEntry(st, rec);
      && st'.info.numBlocks == 2
      && st'.store[1] == st.store[1]
      && st'.store[2] == DataPage([rec], None)
  {
    assert !Fits(|st.store[1].records|, RecordSize);
  }
}

=== FILE: secondary_index.dfy ===
/** The secondary index on the `name` field. On disk it is a single header
    page holding num_buckets; its body lives only in memory: an array of
    num_buckets slots, each holding at most one (name, block id) pair, chosen by
    the djb2 hash of the name. A slot keeps only the last pair hashed to it, so
    the index is a hint: a lookup scans the primary table's bucket pages whose
    tail number equals the slot's block id and counts the records named as
    asked, through the primary table's lookup. */
module SecondaryIndex {
  import opened BlockLayout
  import opened HashTable

  /** The pair a slot holds: a name and the page number the primary table
      returned when the record was inserted. */
  datatype Entry = Entry(name: CString, blockId: int)

  /** The open-index handle; an unset slot is None. */
  datatype ShtInfo = ShtInfo(numBuckets: int, slots: seq<Option<Entry>>)

  /** djb2 over the characters of a string: start from 5381 and, character
      by character, multiply by 33 and add the character, in unsigned 32-bit
      arithmetic. (`(hash << 5) + hash` is `hash * 33` modulo 2^32.) */
  function Djb2(s: seq<CChar>): (h: int)
    ensures 0 <= h < UintModulus
  {
    if |s| == 0 then 5381
    else (Djb2(s[..|s| - 1]) * 33 + s[|s| - 1] as int) % UintModulus
  }

  /** The slot of a name: its djb2 hash modulo num_buckets, always in range. */
  function Slot(name: CString, numBuckets: int): (i: int)
    requires 0 < numBuckets
    ensures 0 <= i < numBuckets
  {
    Djb2(name) % numBuckets
  }

  /** hash_function: the character loop of djb2 in its shift-and-add form,
      stopping at the terminator, then the reduction modulo num_buckets. */
  method HashFunction(name: CString, numBuckets: int) returns (h: int)
    requires 0 < numBuckets
    ensures h == Slot(name, numBuckets)
    ensures 0 <= h < numBuckets
  {
    var hash := 5381;
    var i := 0;
    while i < |name|
      invariant 0 <= i <= |name|
      invariant hash == Djb2(name[..i])
    {
      assert name[..i + 1][..i] == name[..i];
      ShiftAddStep(hash, name[i] as int);
      // `(hash << 5) + hash + c`, each operation wrapping in unsigned int
      hash := (((hash * 32) % UintModulus + hash) % UintModulus + name[i] as int) % UintModulus;
      i := i + 1;
    }
    assert name[..|name|] == name;
    h := hash % numBuckets;
  }

  /** `(h << 5) + h + c` in unsigned int arithmetic is djb2's step
      `h * 33 + c` modulo 2^32. */
  lemma ShiftAddStep(h: int, c: int)
    ensures (((h * 32) % UintModulus + h) % UintModulus + c) % UintModulus
         == (h * 33 + c) % UintModulus
  {
    ModAddLeft(h * 32, h);
    ModAddLeft(h * 32 + h, c);
  }

  /** Reducing a summand first does not change the sum modulo 2^32. */
  lemma ModAddLeft(a: int, b: int)
    ensures (a % UintModulus + b) % UintModulus == (a + b) % UintModulus
  {
    var q := a / UintModulus;
    assert a == q * UintModulus + a % UintModulus;
    ModShift(a % UintModulus + b, q);
  }

  lemma ModShift(x: int, q: int)
    ensures (x + q * UintModulus) % UintModulus == x % UintModulus
  {
  }

  /** The handle opened from an index created with `buckets` slots. */
  function EmptyIndex(buckets: int): ShtInfo
  {
    ShtInfo(buckets, seq(Max0(buckets), _ => None))
  }

  predicate ShtOpenable(s: Store)
  {
    |s| > 0 && s[0].HeaderPage? && 0 in s[0].words
  }

  /** SHT_CreateSecondaryIndex: the file holds only a header page with
      `buckets` in its first field. Opening it yields `buckets` unset slots. */
  function ShtCreateSecondaryIndex(buckets: int): (s: Store)
    ensures |s| == 1
    ensures ShtOpenable(s) && ShtOpenSecondaryIndex(s) == EmptyIndex(buckets)
  {
    [HeaderPage(map[0 := buckets])]
  }

  /** SHT_OpenSecondaryIndex: reads num_buckets and allocates that many
      slots, none of them set. */
  function ShtOpenSecondaryIndex(s: Store): (info: ShtInfo)
    requires ShtOpenable(s)
    ensures info.numBuckets == s[0].words[0]
    ensures |info.slots| == Max0(info.numBuckets)
    ensures forall i :: 0 <= i < |info.slots| ==> info.slots[i].None?
  {
    EmptyIndex(s[0].words[0])
  }

  /** An open index with at least one slot. */
  predicate ShtWf(sht: ShtInfo)
  {
    0 < sht.numBuckets && |sht.slots| == sht.numBuckets
  }

  /** SHT_SecondaryInsertEntry: overwrites the slot of the record's name with
      (name, block id) and returns 0. Every other slot keeps its contents. */
  function ShtSecondaryInsertEntry(sht: ShtInfo, rec: Record, blockId: int): (r: (ShtInfo, int))
    requires ShtWf(sht)
    ensures ShtWf(r.0) && r.0.numBuckets == sht.numBuckets
    ensures r.0.slots[Slot(rec.name, sht.numBuckets)] == Some(Entry(rec.name, blockId))
    ensures forall i :: 0 <= i < |sht.slots| && i != Slot(rec.name, sht.numBuckets) ==> r.0.slots[i] == sht.slots[i]
    ensures r.1 == 0
  {
    var i := Slot(rec.name, sht.numBuckets);
    (sht.(slots := sht.slots[i := Some(Entry(rec.name, blockId))]), 0)
  }

  /** The block id a lookup of `name` starts from, if its slot is set. */
  function Locator(sht: ShtInfo, name: CString): Option<int>
    requires ShtWf(sht)
  {
    match sht.slots[Slot(name, sht.numBuckets)]
    case None => None
    case Some(e) => Some(e.blockId)
  }

  /** Last write wins: of two pairs whose names share a slot, only the later
      survives, and a lookup of either name starts from the later block id. */
  lemma LastWriteWins(sht: ShtInfo, r1: Record, b1: int, r2: Record, b2: int)
    requires ShtWf(sht)
    requires Slot(r1.name, sht.numBuckets) == Slot(r2.name, sht.numBuckets)
    ensures var sht2 := ShtSecondaryInsertEntry(ShtSecondaryInsertEntry(sht, r1, b1).0, r2, b2).0;
      && sht2.slots[Slot(r1.name, sht.numBuckets)] == Some(Entry(r2.name, b2))
      && Locator(sht2, r1.name) == Some(b2)
      && Locator(sht2, r2.name) == Some(b2)
  {
  }

  /** Inserting a pair and then looking up its name starts from the inserted
      block id. */
  lemma InsertThenLocate(sht: ShtInfo, rec: Record, blockId: int)
    requires ShtWf(sht)
    ensures Locator(ShtSecondaryInsertEntry(sht, rec, blockId).0, rec.name) == Some(blockId)
  {
  }

  /** The records a lookup reads from page p when it reads `n` record slots.
      The lookup reads the bucket's total num_records, which can exceed the
      records the page holds; slots past them hold no written record and are
      taken to match no name. */
  function Scanned(p: Page, n: int): (r: seq<Record>)
    requires p.DataPage?
    ensures |r| <= |p.records| && r == p.records[..|r|]
    ensures 0 <= n <= |p.records| ==> |r| == n
  {
    if n <= 0 then [] else if n >= |p.records| then p.records else p.records[..n]
  }

  /** The candidate records of buckets 0..i-1: for each bucket whose tail
      page is `blockId`, the records read from that page. */
  function Candidates(ht: HtState, blockId: int, i: int): seq<Record>
    requires HtWf(ht) && 0 <= i <= ht.info.numBuckets
  {
    if i == 0 then []
    else
      var bi := ht.info.table[i - 1];
      Candidates(ht, blockId, i - 1)
        + (if bi.numBlocks == blockId then Scanned(ht.store[bi.numBlocks], bi.numRecords) else [])
  }

  /** What a secondary lookup of `name` returns: the number of candidate
      records carrying the name (each contributes the primary lookup's 1),
      or 0 when the slot is unset. */
  function ShtMatches(ht: HtState, sht: ShtInfo, name: CString): int
    requires HtWf(ht) && ShtWf(sht)
  {
    match Locator(sht, name)
    case None => 0
    case Some(b) => |Hits(Candidates(ht, b, ht.info.numBuckets), ByName(name))|
  }

  /** SHT_SecondaryGetAllEntries. Hashes the name to its slot and takes the
      slot's block id; then, for every primary bucket whose tail page has that
      number, reads the bucket's num_records record slots from the page and,
      for each record whose name equals the query, adds what HT_GetAllEntries
      returns for its key. Neither the index nor the table is changed. */
  method ShtSecondaryGetAllEntries(ht: HtState, sht: ShtInfo, name: CString) returns (count: int)
    requires HtWf(ht) && KeysInRange(ht) && ShtWf(sht)
    ensures count == ShtMatches(ht, sht, name)
  {
    var bucket := HashFunction(name, sht.numBuckets);
    if sht.slots[bucket].None? {
      return 0;
    }
    count := CountCandidates(ht, sht.slots[bucket].value.blockId, name);
  }

  /** The bucket loop of SHT_SecondaryGetAllEntries: for every bucket whose
      tail page is `blockId`, scans that page for records named `name`. */
  method CountCandidates(ht: HtState, blockId: int, name: CString) returns (count: int)
    requires HtWf(ht) && KeysInRange(ht)
    ensures count == |Hits(Candidates(ht, blockId, ht.info.numBuckets), ByName(name))|
  {
    count := 0;
    var i := 0;
    while i < ht.info.numBuckets
      invariant 0 <= i <= ht.info.numBuckets
      invariant count == |Hits(Candidates(ht, blockId, i), ByName(name))|
    {
      var bi := ht.info.table[i];
      var before := Candidates(ht, blockId, i);
      if bi.numBlocks == blockId {
        var page := ht.store[bi.numBlocks];
        var c := ScanPage(ht, page, bi.numRecords, name);
        HitsConcat(before, Scanned(page, bi.numRecords), ByName(name));
        count := count + c;
      } else {
        assert Candidates(ht, blockId, i + 1) == before;
      }
      i := i + 1;
    }
  }

  /** The inner loop of SHT_SecondaryGetAllEntries over one candidate page:
      reads `n` record slots and adds HT_GetAllEntries' result for each record
      named `name`, so it returns the number of such records. */
  method ScanPage(ht: HtState, page: Page, n: int, name: CString) returns (count: int)
    requires HtWf(ht) && page.DataPage?
    requires forall j :: 0 <= j < |page.records| ==> 0 <= Bucket(page.records[j].id, ht.info.numBuckets)
    ensures count == |Hits(Scanned(page, n), ByName(name))|
  {
    count := 0;
    var r := 0;
    while r < n
      invariant 0 <= r <= Max0(n)
      invariant count == |Hits(Scanned(page, r), ByName(name))|
    {
      if r < |page.records| {
        var rec := page.records[r];
        assert Scanned(page, r + 1) == page.records[..r + 1];
        HitsStep(page.records, r, ByName(name));
        if rec.name == name {
          var c, _ := HtGetAllEntries(ht, rec.id);
          count := count + c;
        }
      } else {
        assert Scanned(page, r + 1) == Scanned(page, r);
      }
      r := r + 1;
    }
  }

  /** When no bucket's tail page has the slot's block id, no record is a
      candidate and the lookup finds nothing. */
  lemma {:induction false} NoCandidateBlock(ht: HtState, blockId: int, i: int)
    requires HtWf(ht) && 0 <= i <= ht.info.numBuckets
    requires forall j :: 0 <= j < i ==> ht.info.table[j].numBlocks != blockId
    ensures Candidates(ht, blockId, i) == []
  {
    if i > 0 {
      NoCandidateBlock(ht, blockId, i - 1);
    }
  }

  /** When exactly bucket c has the block id as its tail, the candidates are
      the records read from that page. */
  lemma {:induction false} SingleCandidateBlock(ht: HtState, blockId: int, c: int, i: int)
    requires HtWf(ht) && 0 <= c < ht.info.numBuckets && 0 <= i <= ht.info.numBuckets
    requires ht.info.table[c].numBlocks == blockId
    requires forall j :: 0 <= j < ht.info.numBuckets && j != c ==> ht.info.table[j].numBlocks != blockId
    ensures Candidates(ht, blockId, i)
         == if c < i then Scanned(ht.store[blockId], ht.info.table[c].numRecords) else []
  {
    if i > 0 {
      SingleCandidateBlock(ht, blockId, c, i - 1);
    }
  }

  /** The first insert into a fresh table lands alone on its bucket's page
      b + 1, which is that bucket's tail and no other bucket's. */
  lemma FreshInsert(buckets: int, rec: Record)
    requires 0 < buckets && 0 <= Bucket(rec.id, buckets)
    ensures var ht := HtState(HtCreateFile(buckets), FreshInfo(buckets));
      var b := Bucket(rec.id, buckets);
      && HtInsertable(ht, rec)
      && var (ht', blockId) := HtInsertEntry(ht, rec);
      && HtWf(ht')
      && blockId == b + 1
      && ht'.info.numBuckets == buckets
      && ht'.info.table[b] == BucketInfo(1, RecordSize, blockId)
      && (forall j :: 0 <= j < buckets && j != b ==> ht'.info.table[j].numBlocks != blockId)
      && ht'.store[blockId].records == [rec]
  {
    var ht := HtState(HtCreateFile(buckets), FreshInfo(buckets));
    var b := Bucket(rec.id, buckets);
    assert ht.store[b + 1].records == [];
    HtRoomOnTail(ht, rec);
  }

  /** Insert-then-lookup through both indexes: on a freshly created and
      opened table and index, inserting a record into the table and its
      returned block id into the index makes a lookup of its name find it. */
  lemma InsertThenLookup(buckets: int, sbuckets: int, rec: Record)
    requires 0 < buckets && 0 < sbuckets && 0 <= Bucket(rec.id, buckets)
    ensures var ht := HtState(HtCreateFile(buckets), FreshInfo(buckets));
      && HtInsertable(ht, rec)
      && var (ht', blockId) := HtInsertEntry(ht, rec);
      && var sht' := ShtSecondaryInsertEntry(EmptyIndex(sbuckets), rec, blockId).0;
      && HtWf(ht') && ShtWf(sht')
      && ShtMatches(ht', sht', rec.name) == 1
  {
    FreshInsert(buckets, rec);
    var ht := HtState(HtCreateFile(buckets), FreshInfo(buckets));
    var (ht', blockId) := HtInsertEntry(ht, rec);
    var sht' := ShtSecondaryInsertEntry(EmptyIndex(sbuckets), rec, blockId).0;
    LookupSoleRecord(ht', sht', rec, Bucket(rec.id, buckets));
  }

  /** When the name's slot points at a page that is the tail of exactly one
      bucket, and that bucket holds just `rec` there, a lookup of rec's name
      counts it once. */
  lemma LookupSoleRecord(ht: HtState, sht: ShtInfo, rec: Record, b: int)
    requires HtWf(ht) && ShtWf(sht) && 0 <= b < ht.info.numBuckets
    requires Locator(sht, rec.name) == Some(ht.info.table[b].numBlocks)
    requires ht.info.table[b].numRecords == 1
    requires ht.store[ht.info.table[b].numBlocks].records == [rec]
    requires forall j :: 0 <= j < ht.info.numBuckets && j != b ==>
      ht.info.table[j].numBlocks != ht.info.table[b].numBlocks
    ensures ShtMatches(ht, sht, rec.name) == 1
  {
    var blockId := ht.info.table[b].numBlocks;
    SingleCandidateBlock(ht, blockId, b, ht.info.numBuckets);
    assert Scanned(ht.store[blockId], 1) == [rec];
    assert [rec][..0] == [];
  }

  /** The overwrite scenario: after ("alice", 3) and then ("bob", 3) share a
      slot, a lookup of "alice" proceeds from bob's pair, so it reports the
      alice records on page 3 found through bob's locator, not a missing slot. */
  lemma OverwrittenSlotStillLooksUp(ht: HtState, sht: ShtInfo, alice: Record, bob: Record)
    requires HtWf(ht) && ShtWf(sht)
    requires Slot(alice.name, sht.numBuckets) == Slot(bob.name, sht.numBuckets)
    ensures var sht2 := ShtSecondaryInsertEntry(ShtSecondaryInsertEntry(sht, alice, 3).0, bob, 3).0;
      && sht2.slots[Slot(alice.name, sht.numBuckets)] == Some(Entry(bob.name, 3))
      && ShtMatches(ht, sht2, alice.name) == |Hits(Candidates(ht, 3, ht.info.numBuckets), ByName(alice.name))|
  {
  }
}
